=== FILE: README.md ===
# Fyyur booking directory: a verified model of the handlers' record logic

Fyyur is a small directory of live-music venues, artists and the shows that
book an artist at a venue. Its request handlers read three tables (Venue,
Artist and the Shows association) and build the pages from them: the venue
listing grouped by (city, state), the name searches, the venue and artist
detail pages with their upcoming and past shows, and the show listing. The
edit, delete and create handlers change the tables.

This model keeps the record logic of those handlers. It leaves out the web
plumbing and the database engine:

- `models.dfy` holds the three tables' rows and the two edit forms as
  datatypes. Timestamps are integers on one clock.
- `text.dfy` holds the case-insensitive substring match the name searches
  use (`name ILIKE '%term%'`).
- `queries.dfy` holds the database reads as pure functions over sequences of
  rows, with the lemmas about them. These reads are primary-key lookup,
  filters on Shows, name search, the representative venue per area, the
  area listing and the rows of the show listing.
- `app.dfy` holds a `Store` class whose fields are the three tables and the
  Shows id sequence. The read handlers are methods that build their results
  with loops, as the handlers do. Each is proved against the functions of
  `queries.dfy`. The edit, delete and create handlers are methods that
  change the store and keep its invariant `Valid()`. Under `Valid()`, keys
  are unique and every show names a stored venue and a stored artist.

Every handler receives the time once, as `now`. A missing record is an
explicit outcome: `None`, or `found == false` with the store unchanged. It
is never excluded by a precondition.

## Model

| member | source | states |
|---|---|---|
| Queries.IndexOf | app.py:102 | `filter_by(id=...).first()`: no position exactly when no row has the key; otherwise the first row with that key |
| Queries.Lookup | app.py:110 | the row found by key is present exactly when some row has the key, and it carries that key |
| Queries.Select | app.py:106 | a Shows filter keeps exactly the rows that meet the criterion and adds none |
| Queries.SelectAppend | app.py:109-117 | filtering commutes with concatenation, so a filtered list keeps the table's order |
| Queries.UpcomingPastPartition | app.py:114-117 | every show is either upcoming (`>= now`) or past (`< now`): the two lists are a split of the shows as a multiset, and their sizes add up to the number of shows |
| Queries.BoundaryExample | app.py:260-263 | a show at `now` is upcoming, one a second earlier is past, one a second later is upcoming |
| Queries.StrictWithinInclusive | app.py:66-68 | the strict `start_time > now` count is never larger than the `>=` count, and is equal to it exactly when no show starts at `now` |
| Queries.UpcomingTotal | app.py:59-60 | the number of an entity's shows after `now` is at most the number of shows, and is 0 exactly when none of its shows starts after `now` |
| Queries.UpcomingTotalSnoc | app.py:66-68 | each further show of the entity that starts strictly after `now` adds one to the total, and any other show adds nothing |
| Queries.UpcomingCount | app.py:66-68 | `num_upcoming_shows` as computed: at most 1, and 1 exactly when the entity has a show strictly after `now`, because the query returns the entity row itself and each entity once (also app.py:89-90, app.py:228-229) |
| Queries.UpcomingCountCounterexample | app.py:89-90 | a venue with shows at `now + 1` and `now + 2` gets the count 1 as computed, while its total is 2 |
| Queries.ListingCountVsDetail | app.py:89-90 | an entity's own upcoming count, as computed and as intended (strict), as the search pages show it and as the venue listing shows it for an area's representative, is at most its detail page's upcoming count (inclusive); the intended total equals it exactly when none of its shows starts at `now` |
| Queries.EntryOf | app.py:112-113 | a detail-page entry carries the counterpart's id and the show's start time |
| Queries.EntryNamesCounterpart | app.py:110-113 | an entry is made of a stored counterpart row: its id, name and image link, with the show's start time (artist rows for a venue page, venue rows for an artist page, app.py:251-258) |
| Queries.Entries | app.py:109-113 | one entry per show, in order, each with that show's counterpart id and start time |
| Queries.EntriesAt | app.py:109-113 | entry k of the list is the entry of show k, so every entry copies its own show's counterpart row |
| Queries.EntriesSelectStep | app.py:114-117 | one loop step appends the show's entry to a list exactly when the show meets that list's time test |
| Queries.EntriesFrom | app.py:114-115 | every entry of the upcoming list starts at or after `now` |
| Queries.EntriesBefore | app.py:116-117 | every entry of the past list starts before `now` |
| App.Store.constructor | models.py:8-12 | a new database has three empty tables and the Shows id sequence at 1, and satisfies the store invariant |
| App.OwnShowsStored | app.py:251 | when every show references stored rows, the counterpart of each of one entity's shows is stored |
| App.Store.Partition | app.py:109-117 | the upcoming list is the entries of the shows with `start_time >= now`, and the past list those with `start_time < now`, both in loop order |
| App.Store.ShowVenue | app.py:101-124 | no page exactly when the venue is missing; otherwise the page shows that venue, both lists come from the venue's shows in order, the counts equal the list lengths and add up to the venue's show count, upcoming entries start at or after `now` and past ones before it |
| App.Store.ShowArtist | app.py:244-280 | the same for an artist and its venues; no page exactly when the artist is missing |
| Text.Lower | app.py:85 | lower-casing keeps the length and maps each character (ASCII letters only) |
| Text.MatchesTerm | app.py:85 | a name matches a term exactly when some window of the lower-cased name equals the lower-cased term |
| Text.OccursIff | app.py:85 | the recursive substring test holds exactly when some window of the name equals the term |
| Text.LowerIdempotent | app.py:85 | lower-casing twice is lower-casing once |
| Text.MatchIgnoresCase | app.py:222 | whether a name matches a term does not depend on the letter case of either |
| Text.EmptyTermMatches | app.py:84 | the empty term matches every name |
| Queries.TermOrEmpty | app.py:84 | the submitted term when the form has one, the empty string otherwise |
| Queries.NameMatches | app.py:85 | a search returns exactly the rows whose name contains the term, ignoring case |
| Queries.NameMatchesAppend | app.py:222 | search results keep table order |
| Queries.EmptyTermMatchesAll | app.py:221 | a form without a search term returns every row, in order |
| Queries.SearchIgnoresTermCase | app.py:84-85 | terms that lower-case alike return the same rows |
| Queries.FirstLetterMissing | app.py:85 | a name lacking the term's first letter (in any case) does not match |
| Queries.MusicalHopScenario | app.py:82-85 | "Music" finds both "The Musical Hop" and "Park Square Live Music & Coffee", in order; "Hop" finds only the first |
| Queries.ArtistSearchA | app.py:219 | "A" finds "Guns N Petals", "Matt Quevado" and "The Wild Sax Band", in order |
| Queries.ArtistSearchBand | app.py:220 | "band" finds only "The Wild Sax Band" |
| Queries.ArtistSearchScenario | app.py:219-222 | both artist-search examples together, over the three sample artists |
| App.Store.Summarize | app.py:87-91 | one summary per found row, in order, with its id, name and upcoming count as the handler computes it |
| App.Store.SearchVenues | app.py:84-92 | `count` is the number of venues whose name matches and equals the length of `data`; entry k is the k-th match with its own upcoming count as computed; no term counts every venue |
| App.Store.SearchArtists | app.py:221-235 | the same for artists |
| Queries.InArea | app.py:70 | an area's group holds exactly the venues of that (city, state) |
| Queries.InAreaAppend | app.py:70 | grouping commutes with concatenation, so an area's group keeps the table's order |
| Queries.Representatives | app.py:63 | `distinct(city, state)` returns stored venues and no more of them than there are venues |
| Queries.RepresentativesSpec | app.py:63 | `distinct(city, state)` picks stored venues that cover every area, and no two of them share an area |
| Queries.Listing | app.py:61-73 | one listed area per representative venue |
| Queries.ListingArea | app.py:69-73 | area k lists exactly the venues of its (city, state), in table order, by id and name |
| Queries.ListingAreasDistinct | app.py:63-73 | no two listed areas have the same (city, state) |
| Queries.EveryVenueListed | app.py:63-73 | every stored venue appears, with its id and name, under the area of its (city, state) |
| Queries.ListedVenuesBelong | app.py:70-73 | every listed entry is a stored venue of its area's (city, state) |
| Queries.RepresentativeCountShared | app.py:66-72 | as written, every entry of an area carries the count computed for the representative venue |
| Queries.OwnCountPerVenue | app.py:59-60 | with own counts, every entry carries the number of upcoming shows of the venue it names |
| Queries.RepresentativesOfPair | app.py:63-70 | two venues of one area have the first as the only representative, and the group holds both |
| Queries.RepresentativeCountCounterexample | app.py:66-72 | two venues of one area, where only the second has an upcoming show: as written the second shows 0 upcoming shows; its own count is 1 |
| Queries.ListingExceedsDetail | app.py:66-72 | as written, a venue that shares an area with a representative that has an upcoming show is listed with 1 upcoming show, while its own detail page lists none |
| App.Store.Venues | app.py:61-73 | the listing built by the loops is the area listing in which every venue of an area carries the count computed for the area's representative |
| App.Store.AreaData | app.py:70-72 | the inner loop lists every venue of the group, in order, by id and name, each with the count passed in for the representative |
| Queries.ListedRow | app.py:421-431 | the corrected row carries the show's venue id, artist id and start time |
| Queries.ListedRowAsWritten | app.py:424-425 | the row as built carries the show's own id as `venue_id` and is otherwise the corrected row |
| Queries.ListedRowConsistent | app.py:421-431 | a show-listing row names the venue and the artist whose ids it carries, with the artist's image and the show's start time |
| Queries.ListedRowCounterexample | app.py:425 | as written, show 1 at venue 2 gets a row whose `venue_id` is 1 but whose venue name is venue 2's |
| App.Store.ListShows | app.py:417-431 | one row per show, in table order, each built as the handler builds it: the show's id as `venue_id`, then its venue's name and its artist's id, name and image |
| App.ApplyVenueForm | app.py:347-354 | a venue edit overwrites name, genres, city, state, phone, address, website and facebook link; id, image link, seeking_talent and seeking_description keep their values |
| App.ApplyArtistForm | app.py:311-317 | an artist edit overwrites name, genres, city, state, phone, website and facebook link; id, image link, seeking_venue and seeking_description keep their values |
| Queries.ReplaceKeepsIndex | app.py:356 | overwriting a row with one of the same key moves no key lookup |
| Queries.ReplaceKeepsKeys | app.py:356 | overwriting a row with one of the same key keeps the set of keys and their uniqueness |
| Queries.ReplaceLookup | app.py:318 | after the overwrite, looking up the edited key finds the new row and every other lookup is unchanged |
| App.Store.EditVenue | app.py:345-357 | found exactly when the venue exists; then only that venue's row changes, to the form applied to it; otherwise nothing changes |
| App.Store.EditArtist | app.py:310-319 | the same for an artist |
| Queries.RemoveAtFacts | app.py:191 | removing one row keeps keys unique and keeps exactly the other rows |
| Queries.RemoveKey | app.py:189-192 | after deleting key `id` no row has it, every other row is kept, and the table shrinks by one exactly when the key was present |
| App.DeleteVenueKeepsReferences | app.py:191-192 | after removing a venue and its Shows rows, every remaining show still names a stored venue and a stored artist |
| App.Store.DeleteVenue | app.py:189-192 | found exactly when the venue exists; then the venue and the Shows rows that name it are gone and all else is kept; otherwise nothing changes |
| App.Store.CreateShow | app.py:452-461 | the show is appended exactly when its artist and venue exist (the foreign keys reject others); the id sequence advances either way |

## Left out

- Web plumbing is not modelled: routing, templates, `flash`, redirects and form parsing. Forms arrive as already-parsed values.
- `format_datetime` (app.py:33-39) is not modelled. Start times stay integers, and the detail-page entries carry the integer rather than the formatted string.
- Session mechanics are not modelled: `add`, `merge`, `commit`, `rollback`, `flush` and transactional atomicity. Each changing handler is one atomic step.
- `ILIKE` is modelled as a literal substring test with ASCII case folding. `%` and `_` in the term are not treated as wildcards, and non-ASCII letters are not case-folded.
- The model takes the first venue of each area, in table order, as its representative, and lists areas in order of first appearance. `DISTINCT ON (city, state)` without `ORDER BY` guarantees neither.
- Result de-duplication is modelled where it decides a result: the upcoming-count queries return each entity once (Queries.UpcomingCount). The search, area and detail-page queries return each stored row once.
- App.Store.EditVenue: models the evidently intended primary-key lookup. As written, `Venue.query.get(id=venue_id)` (app.py:345) passes a keyword that `Query.get` does not accept. It raises before any field is assigned, so the handler as written never changes the store. The edit form's GET handler (app.py:327) has the same call and is not part of this model.
- The clock is read once per request as `now`. Timezones are not modelled, so the `utcnow()`/`now()` difference (app.py:229) is not captured, and neither are repeated clock reads inside one loop.
- Exception paths are modelled as explicit outcomes. A detail page of a missing venue or artist yields `None`. An edit or delete of a missing record yields `found == false` with the store unchanged. A show with an unknown artist or venue is not inserted. Logging of the errors is left out.
- Nullable columns are modelled by non-null values.
- The artist-to-venue cascade of models.py is not modelled, and neither is the import-time default start time of a show. Deleting a venue removes its row and the Shows rows that name it.
- The unused `venues_all` join in the show listing (app.py:419) is left out. So is the echo of the search term into the page.
- The create handlers for venues and artists, the artist listing and the edit forms' GET handlers are not part of this model.
- App.Store.ShowArtist: a missing artist yields `None` after the loop. The handler instead fails when it reads the missing artist's columns, after the loop has looked up every show's venue.

## Findings

| source | as written | input that shows it | evidently intended | confidence | as-written member | corrected member |
|---|---|---|---|---|---|---|
| app.py:425 | the show listing's `venue_id` is set to the show's own id | show 1 at venue 2 while another venue has id 1: the row says venue 1 but names venue 2 | `venue_id` is the show's venue id, as in the row's venue name | high, not executed | Queries.ListedRowCounterexample | Queries.ListedRowConsistent |
| app.py:66-72 | the upcoming count is computed once per area, for the representative venue, and copied to every venue of the area | two venues of one area, only the second with an upcoming show: the second is listed with 0 upcoming shows instead of 1 | each venue is listed with its own upcoming count | high, not executed | Queries.RepresentativeCountCounterexample | Queries.OwnCountPerVenue |
| app.py:66-68 | `num_upcoming_shows` is the length of a query for the entity itself joined to its upcoming shows, which returns the entity at most once | a venue with shows at `now + 1` and `now + 2`: listed with 1 upcoming show instead of 2 (also app.py:89-90, app.py:228-229) | the number of the entity's upcoming shows | medium, not executed | Queries.UpcomingCountCounterexample | Queries.UpcomingTotalSnoc |

=== FILE: app.dfy ===
/**
 * The request handlers of the booking directory over one store of rows.
 * The read handlers build their results with loops over query results, as
 * the handlers do; the edit, delete and create handlers change the store.
 * Every handler that classifies shows receives one `now` for the request.
 */
module App {
  import opened Wrappers
  import opened Models
  import opened Queries

  /** The venue detail page: the venue's columns and its shows split at `now`. */
  datatype VenuePage = VenuePage(
    venue: Venue,
    upcomingShows: seq<ShowEntry>,
    upcomingShowsCount: nat,
    pastShows: seq<ShowEntry>,
    pastShowsCount: nat)

  /** The artist detail page: the artist's columns and its shows split at `now`. */
  datatype ArtistPage = ArtistPage(
    artist: Artist,
    upcomingShows: seq<ShowEntry>,
    upcomingShowsCount: nat,
    pastShows: seq<ShowEntry>,
    pastShowsCount: nat)

  /** The response of a name search. */
  datatype SearchResult = SearchResult(count: nat, data: seq<Summary>)

  /** A venue after the edit handler copies the form into it. */
  function ApplyVenueForm(v: Venue, f: VenueForm): (r: Venue)
    ensures r.id == v.id && r.imageLink == v.imageLink
    ensures r.seekingTalent == v.seekingTalent && r.seekingDescription == v.seekingDescription
    ensures r.name == f.name && r.genres == f.genres && r.city == f.city && r.state == f.state
    ensures r.phone == f.phone && r.address == f.address
    ensures r.websiteLink == f.websiteLink && r.facebookLink == f.facebookLink
  {
    v.(name := f.name, genres := f.genres, city := f.city, state := f.state, phone := f.phone,
       address := f.address, websiteLink := f.websiteLink, facebookLink := f.facebookLink)
  }

  /** An artist after the edit handler copies the form into it. */
  function ApplyArtistForm(a: Artist, f: ArtistForm): (r: Artist)
    ensures r.id == a.id && r.imageLink == a.imageLink
    ensures r.seekingVenue == a.seekingVenue && r.seekingDescription == a.seekingDescription
    ensures r.name == f.name && r.genres == f.genres && r.city == f.city && r.state == f.state
    ensures r.phone == f.phone && r.websiteLink == f.websiteLink && r.facebookLink == f.facebookLink
  {
    a.(name := f.name, genres := f.genres, city := f.city, state := f.state, phone := f.phone,
       websiteLink := f.websiteLink, facebookLink := f.facebookLink)
  }

  /** Every show names a stored venue and a stored artist. */
  predicate ShowsReferenceStored(venues: seq<Venue>, artists: seq<Artist>, shows: seq<Show>)
  {
    forall s :: s in shows ==> Has(venues, VenueId, s.venueId) && Has(artists, ArtistId, s.artistId)
  }

  /**
   * Deleting a venue together with its shows leaves every remaining show
   * pointing at a stored venue and a stored artist.
   */
  lemma DeleteVenueKeepsReferences(venues: seq<Venue>, artists: seq<Artist>, shows: seq<Show>, id: int)
    requires UniqueKeys(venues, VenueId) && ShowsReferenceStored(venues, artists, shows)
    ensures ShowsReferenceStored(RemoveKey(venues, VenueId, id), artists, Select(shows, NotOf(VenueSide, id)))
  {
    var rest := RemoveKey(venues, VenueId, id);
    forall s | s in Select(shows, NotOf(VenueSide, id))
      ensures Has(rest, VenueId, s.venueId)
    {
      var v :| v in venues && VenueId(v) == s.venueId;
      assert v in rest;
    }
  }

  /** The other side of a party's shows: for a venue its artists, for an artist its venues. */
  function Counterpart(side: Side): Side
  {
    match side
    case VenueSide => ArtistSide
    case ArtistSide => VenueSide
  }

  /** When every show references stored rows, the counterparts of one party's shows are stored. */
  lemma OwnShowsStored(venues: seq<Venue>, artists: seq<Artist>, shows: seq<Show>, side: Side, id: int)
    requires ShowsReferenceStored(venues, artists, shows)
    ensures AllCounterpartsStored(venues, artists, Select(shows, Of(side, id)), Counterpart(side))
  {
  }

  /** The rows of the directory, as one request sees them. */
  class Store {
    var venues: seq<Venue>
    var artists: seq<Artist>
    var shows: seq<Show>
    /** The next value of the Shows id sequence. */
    var nextShowId: int

    ghost predicate Valid()
      reads this
    {
      && UniqueKeys(venues, VenueId)
      && UniqueKeys(artists, ArtistId)
      && ShowsReferenceStored(venues, artists, shows)
      && (forall s :: s in shows ==> s.id < nextShowId)
    }

    /** A freshly created database: three empty tables, and the Shows id sequence at its start. */
    constructor()
      ensures Valid()
      ensures venues == [] && artists == [] && shows == [] && nextShowId == 1
    {
      venues, artists, shows, nextShowId := [], [], [], 1;
    }

    /**
     * The loop of both detail pages: each show of `list`, in order, becomes an
     * entry naming its counterpart on `side` and goes to the upcoming list when
     * it starts at or after `now`, to the past list otherwise.
     */
    method Partition(list: seq<Show>, now: int, side: Side) returns (upcoming: seq<ShowEntry>, past: seq<ShowEntry>)
      requires AllCounterpartsStored(venues, artists, list, side)
      ensures AllCounterpartsStored(venues, artists, Select(list, FromTime(now)), side)
      ensures AllCounterpartsStored(venues, artists, Select(list, BeforeTime(now)), side)
      ensures upcoming == Entries(venues, artists, Select(list, FromTime(now)), side)
      ensures past == Entries(venues, artists, Select(list, BeforeTime(now)), side)
    {
      upcoming, past := [], [];
      for i := 0 to |list|
        invariant AllCounterpartsStored(venues, artists, Select(list[..i], FromTime(now)), side)
        invariant AllCounterpartsStored(venues, artists, Select(list[..i], BeforeTime(now)), side)
        invariant upcoming == Entries(venues, artists, Select(list[..i], FromTime(now)), side)
        invariant past == Entries(venues, artists, Select(list[..i], BeforeTime(now)), side)
      {
        EntriesSelectStep(venues, artists, list, i, FromTime(now), side);
        EntriesSelectStep(venues, artists, list, i, BeforeTime(now), side);
        var show := list[i];
        var entry := EntryOf(venues, artists, show, side);
        // The handler's second test, `start_time < now`, always holds here.
        if show.startTime >= now {
          upcoming := upcoming + [entry];
        } else {
          past := past + [entry];
        }
      }
      assert list[..|list|] == list;
    }

    /** GET /venues/<id>: the venue and its artists' shows, upcoming and past. */
    method ShowVenue(venueId: int, now: int) returns (page: Option<VenuePage>)
      requires Valid()
      ensures page.None? <==> !Has(venues, VenueId, venueId)
      ensures page.Some? ==> page.value.venue in venues && page.value.venue.id == venueId
      ensures page.Some? ==>
                var own := Select(shows, Of(VenueSide, venueId));
                && AllCounterpartsStored(venues, artists, Select(own, FromTime(now)), ArtistSide)
                && AllCounterpartsStored(venues, artists, Select(own, BeforeTime(now)), ArtistSide)
                && page.value.upcomingShows == Entries(venues, artists, Select(own, FromTime(now)), ArtistSide)
                && page.value.pastShows == Entries(venues, artists, Select(own, BeforeTime(now)), ArtistSide)
                && page.value.upcomingShowsCount == |page.value.upcomingShows|
                && page.value.pastShowsCount == |page.value.pastShows|
                && page.value.upcomingShowsCount + page.value.pastShowsCount == |own|
                && (forall e :: e in page.value.upcomingShows ==> e.startTime >= now)
                && (forall e :: e in page.value.pastShows ==> e.startTime < now)
    {
      var found := Lookup(venues, VenueId, venueId);
      if found.None? {
        // The handler's exception path renders an empty record.
        return None;
      }
      var own := Select(shows, Of(VenueSide, venueId));
      OwnShowsStored(venues, artists, shows, VenueSide, venueId);
      var upcoming, past := Partition(own, now, ArtistSide);
      UpcomingPastPartition(own, now);
      EntriesFrom(venues, artists, own, ArtistSide, now);
      EntriesBefore(venues, artists, own, ArtistSide, now);
      page := Some(VenuePage(found.value, upcoming, |upcoming|, past, |past|));
    }

    /** GET /artists/<id>: the artist and its venues' shows, upcoming and past. */
    method ShowArtist(artistId: int, now: int) returns (page: Option<ArtistPage>)
      requires Valid()
      ensures page.None? <==> !Has(artists, ArtistId, artistId)
      ensures page.Some? ==> page.value.artist in artists && page.value.artist.id == artistId
      ensures page.Some? ==>
                var own := Select(shows, Of(ArtistSide, artistId));
                && AllCounterpartsStored(venues, artists, Select(own, FromTime(now)), VenueSide)
                && AllCounterpartsStored(venues, artists, Select(own, BeforeTime(now)), VenueSide)
                && page.value.upcomingShows == Entries(venues, artists, Select(own, FromTime(now)), VenueSide)
                && page.value.pastShows == Entries(venues, artists, Select(own, BeforeTime(now)), VenueSide)
                && page.value.upcomingShowsCount == |page.value.upcomingShows|
                && page.value.pastShowsCount == |page.value.pastShows|
                && page.value.upcomingShowsCount + page.value.pastShowsCount == |own|
                && (forall e :: e in page.value.upcomingShows ==> e.startTime >= now)
                && (forall e :: e in page.value.pastShows ==> e.startTime < now)
    {
      var own := Select(shows, Of(ArtistSide, artistId));
      var found := Lookup(artists, ArtistId, artistId);
      OwnShowsStored(venues, artists, shows, ArtistSide, artistId);
      var upcoming, past := Partition(own, now, VenueSide);
      if found.None? {
        // Reading the missing artist's columns fails after the loop.
        return None;
      }
      UpcomingPastPartition(own, now);
      EntriesFrom(venues, artists, own, VenueSide, now);
      EntriesBefore(venues, artists, own, VenueSide, now);
      page := Some(ArtistPage(found.value, upcoming, |upcoming|, past, |past|));
    }

    /**
     * GET /venues: one area per representative venue; each lists every venue
     * of its (city, state) with the count computed for the representative.
     */
    method Venues(now: int) returns (areas: seq<Area>)
      ensures areas == Listing(venues, shows, now, RepresentativeCount)
    {
      var reps := Representatives(venues);
      ghost var listing := Listing(venues, shows, now, RepresentativeCount);
      areas := [];
      for k := 0 to |reps|
        invariant areas == listing[..k]
      {
        var rep := reps[k];
        var upcoming := UpcomingCount(shows, VenueSide, rep.id, now);
        var group := InArea(venues, AreaOf(rep));
        var data := AreaData(group, rep, upcoming, now);
        areas := areas + [Area(rep.city, rep.state, data)];
      }
      assert listing[..|reps|] == listing;
    }

    /** The inner loop of the venue listing: every venue of one area, with the representative's count. */
    method AreaData(group: seq<Venue>, rep: Venue, upcoming: nat, now: int) returns (data: seq<Summary>)
      requires upcoming == UpcomingCount(shows, VenueSide, rep.id, now)
      ensures data == AreaEntries(group, shows, now, rep, RepresentativeCount)
    {
      data := [];
      for m := 0 to |group|
        invariant |data| == m
        invariant forall j :: 0 <= j < m ==> data[j] == Summary(group[j].id, group[j].name, upcoming)
      {
        data := data + [Summary(group[m].id, group[m].name, upcoming)];
      }
    }

    /** The loop of both searches: one summary per found row with its strict upcoming count. */
    method Summarize<T>(found: seq<T>, key: T -> int, name: T -> string, side: Side, now: int)
      returns (data: seq<Summary>)
      ensures |data| == |found|
      ensures forall k :: 0 <= k < |found| ==>
                data[k] == Summary(key(found[k]), name(found[k]), UpcomingCount(shows, side, key(found[k]), now))
    {
      data := [];
      for k := 0 to |found|
        invariant |data| == k
        invariant forall j :: 0 <= j < k ==>
                    data[j] == Summary(key(found[j]), name(found[j]), UpcomingCount(shows, side, key(found[j]), now))
      {
        var x := found[k];
        data := data + [Summary(key(x), name(x), UpcomingCount(shows, side, key(x), now))];
      }
    }

    /** POST /venues/search: the venues whose name contains the term, ignoring case. */
    method SearchVenues(searchTerm: Option<string>, now: int) returns (result: SearchResult)
      ensures var found := NameMatches(venues, VenueName, TermOrEmpty(searchTerm));
              && result.count == |found| == |result.data|
              && forall k :: 0 <= k < |found| ==>
                   result.data[k] == Summary(found[k].id, found[k].name, UpcomingCount(shows, VenueSide, found[k].id, now))
      ensures searchTerm.None? ==> result.count == |venues|
    {
      var found := NameMatches(venues, VenueName, TermOrEmpty(searchTerm));
      var data := Summarize(found, VenueId, VenueName, VenueSide, now);
      EmptyTermMatchesAll(venues, VenueName);
      result := SearchResult(|found|, data);
    }

    /** POST /artists/search: the artists whose name contains the term, ignoring case. */
    method SearchArtists(searchTerm: Option<string>, now: int) returns (result: SearchResult)
      ensures var found := NameMatches(artists, ArtistName, TermOrEmpty(searchTerm));
              && result.count == |found| == |result.data|
              && forall k :: 0 <= k < |found| ==>
                   result.data[k] == Summary(found[k].id, found[k].name, UpcomingCount(shows, ArtistSide, found[k].id, now))
      ensures searchTerm.None? ==> result.count == |artists|
    {
      var found := NameMatches(artists, ArtistName, TermOrEmpty(searchTerm));
      var data := Summarize(found, ArtistId, ArtistName, ArtistSide, now);
      EmptyTermMatchesAll(artists, ArtistName);
      result := SearchResult(|found|, data);
    }

    /** GET /shows: one row per show, in table order, as the handler builds it. */
    method ListShows() returns (rows: seq<ShowRow>)
      requires Valid()
      ensures |rows| == |shows|
      ensures forall k :: 0 <= k < |shows| ==> rows[k] == ListedRowAsWritten(venues, artists, shows[k])
    {
      rows := [];
      for k := 0 to |shows|
        invariant |rows| == k
        invariant forall j :: 0 <= j < k ==> rows[j] == ListedRowAsWritten(venues, artists, shows[j])
      {
        var show := shows[k];
        assert show in shows;
        var artist := Lookup(artists, ArtistId, show.artistId).value;
        var venue := Lookup(venues, VenueId, show.venueId).value;
        rows := rows + [ShowRow(show.id, venue.name, artist.id, artist.name, artist.imageLink, show.startTime)];
      }
    }

    /** POST /venues/<id>/edit: copy the form into the stored venue. */
    method EditVenue(venueId: int, form: VenueForm) returns (found: bool)
      requires Valid()
      modifies this
      ensures Valid()
      ensures found <==> Has(old(venues), VenueId, venueId)
      ensures found ==> var i := IndexOf(old(venues), VenueId, venueId).value;
                        venues == old(venues)[i := ApplyVenueForm(old(venues)[i], form)]
      ensures !found ==> venues == old(venues)
      ensures artists == old(artists) && shows == old(shows) && nextShowId == old(nextShowId)
    {
      var index := IndexOf(venues, VenueId, venueId);
      if index.None? {
        // The handler fails on the missing venue before committing.
        return false;
      }
      var i := index.value;
      var edited := ApplyVenueForm(venues[i], form);
      ReplaceKeepsKeys(venues, VenueId, i, edited);
      venues := venues[i := edited];
      found := true;
    }

    /** POST /artists/<id>/edit: copy the form into the stored artist. */
    method EditArtist(artistId: int, form: ArtistForm) returns (found: bool)
      requires Valid()
      modifies this
      ensures Valid()
      ensures found <==> Has(old(artists), ArtistId, artistId)
      ensures found ==> var i := IndexOf(old(artists), ArtistId, artistId).value;
                        artists == old(artists)[i := ApplyArtistForm(old(artists)[i], form)]
      ensures !found ==> artists == old(artists)
      ensures venues == old(venues) && shows == old(shows) && nextShowId == old(nextShowId)
    {
      var index := IndexOf(artists, ArtistId, artistId);
      if index.None? {
        // The handler fails on the missing artist before committing.
        return false;
      }
      var i := index.value;
      var edited := ApplyArtistForm(artists[i], form);
      ReplaceKeepsKeys(artists, ArtistId, i, edited);
      artists := artists[i := edited];
      found := true;
    }

    /** /venues/<id>/delete: remove the venue and the Shows rows that reference it. */
    method DeleteVenue(venueId: int) returns (found: bool)
      requires Valid()
      modifies this
      ensures Valid()
      ensures found <==> Has(old(venues), VenueId, venueId)
      ensures found ==> venues == RemoveKey(old(venues), VenueId, venueId)
                        && shows == Select(old(shows), NotOf(VenueSide, venueId))
      ensures !found ==> venues == old(venues) && shows == old(shows)
      ensures artists == old(artists) && nextShowId == old(nextShowId)
    {
      found := IndexOf(venues, VenueId, venueId).Some?;
      if !found {
        // Deleting the missing venue fails before committing.
        return;
      }
      DeleteVenueKeepsReferences(venues, artists, shows, venueId);
      venues := RemoveKey(venues, VenueId, venueId);
      shows := Select(shows, NotOf(VenueSide, venueId));
    }

    /**
     * POST /shows/create: insert a show. The foreign keys reject an unknown
     * artist or venue and nothing is inserted; the id sequence advances
     * either way.
     */
    method CreateShow(artistId: int, venueId: int, startTime: int) returns (ok: bool)
      requires Valid()
      modifies this
      ensures Valid()
      ensures ok <==> Has(venues, VenueId, venueId) && Has(artists, ArtistId, artistId)
      ensures ok ==> shows == old(shows) + [Show(old(nextShowId), artistId, venueId, startTime)]
      ensures !ok ==> shows == old(shows)
      ensures venues == old(venues) && artists == old(artists) && nextShowId == old(nextShowId) + 1
    {
      ok := IndexOf(artists, ArtistId, artistId).Some? && IndexOf(venues, VenueId, venueId).Some?;
      if ok {
        shows := shows + [Show(nextShowId, artistId, venueId, startTime)];
      }
      nextShowId := nextShowId + 1;
    }
  }
}

=== FILE: models.dfy ===
/**
 * The three tables of the booking directory: Venue, Artist and the Shows
 * association between them. Timestamps are integers on one clock; nullable
 * columns are modelled by their non-null values.
 */
module Models {

  /** A row of the Venue table. */
  datatype Venue = Venue(
    id: int,
    name: string,
    city: string,
    state: string,
    address: string,
    phone: string,
    imageLink: string,
    facebookLink: string,
    genres: seq<string>,
    seekingTalent: bool,
    seekingDescription: string,
    websiteLink: string)

  /** A row of the Artist table; unlike a venue, its genres are one string column. */
  datatype Artist = Artist(
    id: int,
    name: string,
    city: string,
    state: string,
    phone: string,
    genres: string,
    seekingVenue: bool,
    seekingDescription: string,
    imageLink: string,
    websiteLink: string,
    facebookLink: string)

  /** A row of the Shows association table. */
  datatype Show = Show(id: int, artistId: int, venueId: int, startTime: int)

  /** The values a submitted venue edit form carries. */
  datatype VenueForm = VenueForm(
    name: string,
    genres: seq<string>,
    city: string,
    state: string,
    phone: string,
    address: string,
    websiteLink: string,
    facebookLink: string)

  /** The values a submitted artist edit form carries. */
  datatype ArtistForm = ArtistForm(
    name: string,
    genres: string,
    city: string,
    state: string,
    phone: string,
    websiteLink: string,
    facebookLink: string)

  // Primary keys and names, passed to the queries that serve both tables.
  function VenueId(v: Venue): int { v.id }
  function VenueName(v: Venue): string { v.name }
  function ArtistId(a: Artist): int { a.id }
  function ArtistName(a: Artist): string { a.name }

  /** The (city, state) pair a venue is listed under. */
  function AreaOf(v: Venue): (string, string) { (v.city, v.state) }
}

=== FILE: queries.dfy ===
/**
 * The database reads the request handlers issue, as pure functions over the
 * stored rows: primary-key lookup, filters on the Shows table, the name
 * search, the area listing and the rows of the show listing.
 */
module Queries {
  import opened Wrappers
  import opened Models
  import opened Text

  // ---------------------------------------------------------------------
  // Lookup by primary key
  // ---------------------------------------------------------------------

  /** Some row of `s` has key `id`. */
  predicate Has<T(==)>(s: seq<T>, key: T -> int, id: int)
  {
    exists x :: x in s && key(x) == id
  }

  /** No two rows of `s` share a key. */
  predicate UniqueKeys<T>(s: seq<T>, key: T -> int)
  {
    forall i, j :: 0 <= i < j < |s| ==> key(s[i]) != key(s[j])
  }

  /** Position of the first row whose key is `id` (`filter_by(id=...).first()`). */
  function IndexOf<T(==)>(s: seq<T>, key: T -> int, id: int): (r: Option<nat>)
    ensures r.None? <==> !Has(s, key, id)
    ensures r.Some? ==> r.value < |s| && key(s[r.value]) == id
    ensures r.Some? ==> forall j :: 0 <= j < r.value ==> key(s[j]) != id
  {
    if s == [] then None
    else if key(s[0]) == id then Some(0)
    else
      assert forall x :: x in s ==> x == s[0] || x in s[1..];
      match IndexOf(s[1..], key, id)
      case None => None
      case Some(i) => Some(i + 1)
  }

  /** The row whose key is `id`, if there is one. */
  function Lookup<T(==)>(s: seq<T>, key: T -> int, id: int): (r: Option<T>)
    ensures r.Some? <==> Has(s, key, id)
    ensures r.Some? ==> r.value in s && key(r.value) == id
  {
    match IndexOf(s, key, id)
    case None => None
    case Some(i) => Some(s[i])
  }

  /** Overwriting a row by one with the same key moves no lookup. */
  lemma {:induction false} ReplaceKeepsIndex<T>(s: seq<T>, key: T -> int, i: nat, x: T, id: int)
    requires i < |s| && key(x) == key(s[i])
    ensures IndexOf(s[i := x], key, id) == IndexOf(s, key, id)
  {
    if i == 0 {
      assert s[i := x][1..] == s[1..];
    } else {
      assert s[i := x][0] == s[0];
      assert s[i := x][1..] == s[1..][i - 1 := x];
      ReplaceKeepsIndex(s[1..], key, i - 1, x, id);
    }
  }

  /** Overwriting a row by one with the same key keeps the set of keys and their uniqueness. */
  lemma ReplaceKeepsKeys<T>(s: seq<T>, key: T -> int, i: nat, x: T)
    requires i < |s| && key(x) == key(s[i])
    ensures forall id :: Has(s[i := x], key, id) == Has(s, key, id)
    ensures UniqueKeys(s, key) ==> UniqueKeys(s[i := x], key)
  {
    forall id
      ensures Has(s[i := x], key, id) == Has(s, key, id)
    {
      ReplaceKeepsIndex(s, key, i, x, id);
    }
    assert forall k :: 0 <= k < |s| ==> key(s[i := x][k]) == key(s[k]);
  }

  /**
   * After overwriting the row with key `id` by `x` (same key), looking up `id`
   * finds `x` and every other lookup finds what it found before.
   */
  lemma ReplaceLookup<T>(s: seq<T>, key: T -> int, id: int, x: T)
    requires Has(s, key, id) && key(x) == id
    ensures var i := IndexOf(s, key, id).value;
            && Lookup(s[i := x], key, id) == Some(x)
            && forall other :: other != id ==> Lookup(s[i := x], key, other) == Lookup(s, key, other)
  {
    var i := IndexOf(s, key, id).value;
    ReplaceKeepsIndex(s, key, i, x, id);
    forall other | other != id
      ensures Lookup(s[i := x], key, other) == Lookup(s, key, other)
    {
      ReplaceKeepsIndex(s, key, i, x, other);
    }
  }

  /** `s` without the row at position `i`. */
  lemma RemoveAtFacts<T>(s: seq<T>, key: T -> int, i: nat)
    requires i < |s| && UniqueKeys(s, key)
    ensures UniqueKeys(s[..i] + s[i + 1..], key)
    ensures forall x :: x in s[..i] + s[i + 1..] ==> x in s && key(x) != key(s[i])
    ensures forall x :: x in s && key(x) != key(s[i]) ==> x in s[..i] + s[i + 1..]
  {
    var r := s[..i] + s[i + 1..];
    assert forall k :: 0 <= k < |r| ==> r[k] == if k < i then s[k] else s[k + 1];
    forall x | x in s && key(x) != key(s[i])
      ensures x in r
    {
      var k :| 0 <= k < |s| && s[k] == x;
      if k < i {
        assert r[k] == x;
      } else {
        assert r[k - 1] == x;
      }
    }
  }

  /** The table after deleting the row whose key is `id`. */
  function RemoveKey<T(==,!new)>(s: seq<T>, key: T -> int, id: int): (r: seq<T>)
    requires UniqueKeys(s, key)
    ensures UniqueKeys(r, key) && !Has(r, key, id)
    ensures forall x :: x in r <==> x in s && key(x) != id
    ensures |r| == if Has(s, key, id) then |s| - 1 else |s|
  {
    match IndexOf(s, key, id)
    case None => s
    case Some(i) =>
      RemoveAtFacts(s, key, i);
      s[..i] + s[i + 1..]
  }

  // ---------------------------------------------------------------------
  // Filters on the Shows table
  // ---------------------------------------------------------------------

  /** Which foreign key of a show is meant: its venue or its artist. */
  datatype Side = VenueSide | ArtistSide

  function PartyId(s: Show, side: Side): int
  {
    match side
    case VenueSide => s.venueId
    case ArtistSide => s.artistId
  }

  /** A condition on Show rows, as the handlers write them in their filters. */
  datatype Criterion =
    | Of(side: Side, id: int)       // venue_id == id, or artist_id == id
    | NotOf(side: Side, id: int)    // venue_id != id, or artist_id != id
    | FromTime(t: int)              // start_time >= t
    | BeforeTime(t: int)            // start_time < t
    | AfterTime(t: int)             // start_time > t

  predicate Meets(s: Show, c: Criterion)
  {
    match c
    case Of(side, id) => PartyId(s, side) == id
    case NotOf(side, id) => PartyId(s, side) != id
    case FromTime(t) => s.startTime >= t
    case BeforeTime(t) => s.startTime < t
    case AfterTime(t) => s.startTime > t
  }

  /** The rows of `ss` that meet `c`, in table order. */
  function Select(ss: seq<Show>, c: Criterion): (r: seq<Show>)
    ensures |r| <= |ss|
    ensures forall s :: s in r <==> s in ss && Meets(s, c)
  {
    if ss == [] then []
    else
      assert forall s :: s in ss ==> s == ss[0] || s in ss[1..];
      (if Meets(ss[0], c) then [ss[0]] else []) + Select(ss[1..], c)
  }

  /** Selecting from a concatenation concatenates the selections: order is kept. */
  lemma {:induction false} SelectAppend(a: seq<Show>, b: seq<Show>, c: Criterion)
    ensures Select(a + b, c) == Select(a, c) + Select(b, c)
  {
    if a != [] {
      assert (a + b)[1..] == a[1..] + b;
      SelectAppend(a[1..], b, c);
    } else {
      assert a + b == b;
    }
  }

  /** Selecting after one more row appends that row when it qualifies. */
  lemma SelectSnoc(ss: seq<Show>, s: Show, c: Criterion)
    ensures Select(ss + [s], c) == Select(ss, c) + (if Meets(s, c) then [s] else [])
  {
    SelectAppend(ss, [s], c);
    assert Select([s], c) == (if Meets(s, c) then [s] else []) + Select([], c);
  }

  /**
   * The detail-page split: every show is either upcoming (start_time >= now)
   * or past (start_time < now), never both and never neither.
   */
  lemma {:induction false} UpcomingPastPartition(ss: seq<Show>, now: int)
    ensures multiset(Select(ss, FromTime(now))) + multiset(Select(ss, BeforeTime(now))) == multiset(ss)
    ensures |Select(ss, FromTime(now))| + |Select(ss, BeforeTime(now))| == |ss|
  {
    if ss != [] {
      UpcomingPastPartition(ss[1..], now);
      assert ss == [ss[0]] + ss[1..];
    }
  }

  /**
   * The strict test `start_time > now` finds no more shows than the inclusive
   * `start_time >= now`, and exactly as many when no show starts at `now`.
   */
  lemma {:induction false} StrictWithinInclusive(ss: seq<Show>, now: int)
    ensures |Select(ss, AfterTime(now))| <= |Select(ss, FromTime(now))|
    ensures |Select(ss, AfterTime(now))| == |Select(ss, FromTime(now))|
            <==> forall s :: s in ss ==> s.startTime != now
  {
    if ss != [] {
      StrictWithinInclusive(ss[1..], now);
      assert forall s :: s in ss <==> s == ss[0] || s in ss[1..];
    }
  }

  /** Shows one second before and after `now` are past and upcoming; one at `now` is upcoming. */
  lemma BoundaryExample(now: int)
    ensures var before, at, after := Show(1, 1, 1, now - 1), Show(2, 1, 1, now), Show(3, 1, 1, now + 1);
            Select([before, at, after], FromTime(now)) == [at, after] &&
            Select([before, at, after], BeforeTime(now)) == [before]
  {
    var before, at, after := Show(1, 1, 1, now - 1), Show(2, 1, 1, now), Show(3, 1, 1, now + 1);
    SelectSnoc([before, at], after, FromTime(now));
    SelectSnoc([before], at, FromTime(now));
    SelectSnoc([], before, FromTime(now));
    SelectSnoc([before, at], after, BeforeTime(now));
    SelectSnoc([before], at, BeforeTime(now));
    SelectSnoc([], before, BeforeTime(now));
    assert [before, at] == [before] + [at];
    assert [before, at, after] == [before, at] + [after];
  }

  // ---------------------------------------------------------------------
  // Upcoming-show counts for listings and search
  // ---------------------------------------------------------------------

  /** The number of shows of entity `id` that start strictly after `now`. */
  function UpcomingTotal(ss: seq<Show>, side: Side, id: int, now: int): (n: nat)
    ensures n <= |ss|
    ensures n == 0 <==> forall s :: s in ss && PartyId(s, side) == id ==> s.startTime <= now
  {
    var own := Select(ss, Of(side, id));
    var later := Select(own, AfterTime(now));
    assert later != [] ==> later[0] in later;
    |later|
  }

  /**
   * `num_upcoming_shows` as the handlers compute it: the length of a query for
   * the entity itself joined to its shows after `now`. The query returns each
   * matching entity once, so the length is 1 when the entity has any show
   * after `now` and 0 otherwise.
   */
  function UpcomingCount(ss: seq<Show>, side: Side, id: int, now: int): (r: nat)
    ensures r <= 1 && r <= UpcomingTotal(ss, side, id, now)
    ensures r == 1 <==> exists s :: s in ss && PartyId(s, side) == id && s.startTime > now
  {
    if UpcomingTotal(ss, side, id, now) == 0 then 0 else 1
  }

  /** Each further show of entity `id` after `now` adds one to the intended total. */
  lemma UpcomingTotalSnoc(ss: seq<Show>, s: Show, side: Side, id: int, now: int)
    ensures UpcomingTotal(ss + [s], side, id, now) ==
            UpcomingTotal(ss, side, id, now) + (if PartyId(s, side) == id && s.startTime > now then 1 else 0)
  {
    var own := Select(ss, Of(side, id));
    SelectSnoc(ss, s, Of(side, id));
    if PartyId(s, side) == id {
      assert Select(ss + [s], Of(side, id)) == own + [s];
      SelectSnoc(own, s, AfterTime(now));
    } else {
      assert Select(ss + [s], Of(side, id)) == own;
    }
  }

  /** A venue with two upcoming shows: the count as computed is 1, the intended total 2. */
  lemma UpcomingCountCounterexample(now: int)
    ensures var ss := [Show(1, 5, 1, now + 1), Show(2, 5, 1, now + 2)];
            UpcomingCount(ss, VenueSide, 1, now) == 1 && UpcomingTotal(ss, VenueSide, 1, now) == 2
  {
    var a, b := Show(1, 5, 1, now + 1), Show(2, 5, 1, now + 2);
    UpcomingTotalSnoc([a], b, VenueSide, 1, now);
    UpcomingTotalSnoc([], a, VenueSide, 1, now);
    assert [a] == [] + [a];
  }

  /**
   * An entity's own upcoming count, as the search pages show it (and as the
   * venue listing shows it for an area's representative), never exceeds the
   * detail page's upcoming count for that entity; the intended total equals
   * the detail page's count exactly when none of its shows starts at `now`.
   */
  lemma ListingCountVsDetail(ss: seq<Show>, side: Side, id: int, now: int)
    ensures UpcomingCount(ss, side, id, now) <= |Select(Select(ss, Of(side, id)), FromTime(now))|
    ensures UpcomingTotal(ss, side, id, now) <= |Select(Select(ss, Of(side, id)), FromTime(now))|
    ensures UpcomingTotal(ss, side, id, now) == |Select(Select(ss, Of(side, id)), FromTime(now))|
            <==> forall s :: s in ss && PartyId(s, side) == id ==> s.startTime != now
  {
    StrictWithinInclusive(Select(ss, Of(side, id)), now);
  }

  /** One entry of a listing or search result. */
  datatype Summary = Summary(id: int, name: string, numUpcomingShows: nat)

  // ---------------------------------------------------------------------
  // Detail pages: the counterpart of each show
  // ---------------------------------------------------------------------

  /** An entry of a detail page's show lists: the counterpart's id, name, image and the start time. */
  datatype ShowEntry = ShowEntry(id: int, name: string, imageLink: string, startTime: int)

  /** The counterpart of `s` on `side` is stored. */
  predicate CounterpartStored(venues: seq<Venue>, artists: seq<Artist>, s: Show, side: Side)
  {
    match side
    case VenueSide => Has(venues, VenueId, s.venueId)
    case ArtistSide => Has(artists, ArtistId, s.artistId)
  }

  /** The entry for show `s`, naming its venue or its artist. */
  function EntryOf(venues: seq<Venue>, artists: seq<Artist>, s: Show, side: Side): (e: ShowEntry)
    requires CounterpartStored(venues, artists, s, side)
    ensures e.id == PartyId(s, side) && e.startTime == s.startTime
  {
    match side
    case VenueSide =>
      var v := Lookup(venues, VenueId, s.venueId).value;
      ShowEntry(v.id, v.name, v.imageLink, s.startTime)
    case ArtistSide =>
      var a := Lookup(artists, ArtistId, s.artistId).value;
      ShowEntry(a.id, a.name, a.imageLink, s.startTime)
  }

  /** The entry of a show copies the id, name and image of the stored counterpart row. */
  lemma EntryNamesCounterpart(venues: seq<Venue>, artists: seq<Artist>, s: Show, side: Side)
    requires CounterpartStored(venues, artists, s, side)
    ensures var e := EntryOf(venues, artists, s, side);
            side == ArtistSide ==>
              exists a :: a in artists && a.id == s.artistId && e == ShowEntry(a.id, a.name, a.imageLink, s.startTime)
    ensures var e := EntryOf(venues, artists, s, side);
            side == VenueSide ==>
              exists v :: v in venues && v.id == s.venueId && e == ShowEntry(v.id, v.name, v.imageLink, s.startTime)
  {
    match side
    case ArtistSide =>
      var a := Lookup(artists, ArtistId, s.artistId).value;
      assert a in artists && a.id == s.artistId;
    case VenueSide =>
      var v := Lookup(venues, VenueId, s.venueId).value;
      assert v in venues && v.id == s.venueId;
  }

  /** Every show of `ss` has its counterpart on `side` stored. */
  predicate AllCounterpartsStored(venues: seq<Venue>, artists: seq<Artist>, ss: seq<Show>, side: Side)
  {
    forall s :: s in ss ==> CounterpartStored(venues, artists, s, side)
  }

  /** One entry per show of `ss`, in order, naming each show's counterpart on `side`. */
  function Entries(venues: seq<Venue>, artists: seq<Artist>, ss: seq<Show>, side: Side): (r: seq<ShowEntry>)
    requires AllCounterpartsStored(venues, artists, ss, side)
    ensures |r| == |ss|
    ensures forall k :: 0 <= k < |ss| ==> r[k].id == PartyId(ss[k], side) && r[k].startTime == ss[k].startTime
  {
    if ss == [] then []
    else
      var init := ss[..|ss| - 1];
      assert forall s :: s in init ==> s in ss;
      Entries(venues, artists, init, side) + [EntryOf(venues, artists, ss[|ss| - 1], side)]
  }

  /** Entry `k` is the entry of show `k`: its counterpart's id, name and image, and the show's start time. */
  lemma {:induction false} EntriesAt(venues: seq<Venue>, artists: seq<Artist>, ss: seq<Show>, side: Side, k: int)
    requires AllCounterpartsStored(venues, artists, ss, side) && 0 <= k < |ss|
    ensures ss[k] in ss
    ensures Entries(venues, artists, ss, side)[k] == EntryOf(venues, artists, ss[k], side)
  {
    var init := ss[..|ss| - 1];
    if k < |ss| - 1 {
      assert forall s :: s in init ==> s in ss;
      assert init[k] == ss[k];
      EntriesAt(venues, artists, init, side, k);
    }
  }

  /** The entries of one more show end with that show's entry. */
  lemma EntriesSnoc(venues: seq<Venue>, artists: seq<Artist>, ss: seq<Show>, s: Show, side: Side)
    requires AllCounterpartsStored(venues, artists, ss, side) && CounterpartStored(venues, artists, s, side)
    ensures AllCounterpartsStored(venues, artists, ss + [s], side)
    ensures Entries(venues, artists, ss + [s], side) == Entries(venues, artists, ss, side) + [EntryOf(venues, artists, s, side)]
  {
    assert (ss + [s])[..|ss|] == ss;
  }

  /**
   * One step of a loop over `list`: the entries of the shows of `list[..i + 1]`
   * meeting `c` gain the entry of `list[i]` exactly when that show meets `c`.
   */
  lemma EntriesSelectStep(venues: seq<Venue>, artists: seq<Artist>, list: seq<Show>, i: int, c: Criterion, side: Side)
    requires AllCounterpartsStored(venues, artists, list, side) && 0 <= i < |list|
    ensures AllCounterpartsStored(venues, artists, Select(list[..i], c), side)
    ensures AllCounterpartsStored(venues, artists, Select(list[..i + 1], c), side)
    ensures CounterpartStored(venues, artists, list[i], side)
    ensures Entries(venues, artists, Select(list[..i + 1], c), side) ==
            Entries(venues, artists, Select(list[..i], c), side) +
            (if Meets(list[i], c) then [EntryOf(venues, artists, list[i], side)] else [])
  {
    var init, s := list[..i], list[i];
    assert list[..i + 1] == init + [s];
    assert s in list;
    SelectSnoc(init, s, c);
    StoredWithin(venues, artists, Select(init, c), list, side);
    StoredWithin(venues, artists, Select(list[..i + 1], c), list, side);
    if Meets(s, c) {
      EntriesSnoc(venues, artists, Select(init, c), s, side);
    } else {
      assert Select(list[..i + 1], c) == Select(init, c);
    }
  }

  /** The shows of a sub-collection of `list` keep their counterparts stored. */
  lemma StoredWithin(venues: seq<Venue>, artists: seq<Artist>, part: seq<Show>, list: seq<Show>, side: Side)
    requires AllCounterpartsStored(venues, artists, list, side)
    requires forall x :: x in part ==> x in list
    ensures AllCounterpartsStored(venues, artists, part, side)
  {
  }

  /** The entries of the shows starting at or after `t` start at or after `t`. */
  lemma EntriesFrom(venues: seq<Venue>, artists: seq<Artist>, ss: seq<Show>, side: Side, t: int)
    requires AllCounterpartsStored(venues, artists, Select(ss, FromTime(t)), side)
    ensures forall e :: e in Entries(venues, artists, Select(ss, FromTime(t)), side) ==> e.startTime >= t
  {
    var sel := Select(ss, FromTime(t));
    var rows := Entries(venues, artists, sel, side);
    forall e | e in rows
      ensures e.startTime >= t
    {
      var k :| 0 <= k < |rows| && rows[k] == e;
      assert sel[k] in sel;
    }
  }

  /** The entries of the shows starting before `t` start before `t`. */
  lemma EntriesBefore(venues: seq<Venue>, artists: seq<Artist>, ss: seq<Show>, side: Side, t: int)
    requires AllCounterpartsStored(venues, artists, Select(ss, BeforeTime(t)), side)
    ensures forall e :: e in Entries(venues, artists, Select(ss, BeforeTime(t)), side) ==> e.startTime < t
  {
    var sel := Select(ss, BeforeTime(t));
    var rows := Entries(venues, artists, sel, side);
    forall e | e in rows
      ensures e.startTime < t
    {
      var k :| 0 <= k < |rows| && rows[k] == e;
      assert sel[k] in sel;
    }
  }

  // ---------------------------------------------------------------------
  // Name search
  // ---------------------------------------------------------------------

  /** The search term; a form without one searches for the empty string. */
  function TermOrEmpty(term: Option<string>): (t: string)
    ensures term.Some? ==> t == term.value
    ensures term.None? ==> t == ""
  {
    match term
    case Some(t) => t
    case None => ""
  }

  /** The rows whose name matches `term` case-insensitively, in table order. */
  function NameMatches<T(==,!new)>(s: seq<T>, name: T -> string, term: string): (r: seq<T>)
    ensures |r| <= |s|
    ensures forall x :: x in r <==> x in s && MatchesTerm(name(x), term)
  {
    if s == [] then []
    else
      assert forall x :: x in s ==> x == s[0] || x in s[1..];
      (if MatchesTerm(name(s[0]), term) then [s[0]] else []) + NameMatches(s[1..], name, term)
  }

  /** Search results keep table order. */
  lemma {:induction false} NameMatchesAppend<T(!new)>(a: seq<T>, b: seq<T>, name: T -> string, term: string)
    ensures NameMatches(a + b, name, term) == NameMatches(a, name, term) + NameMatches(b, name, term)
  {
    if a != [] {
      assert (a + b)[1..] == a[1..] + b;
      assert NameMatches(a + b, name, term) ==
             (if MatchesTerm(name(a[0]), term) then [a[0]] else []) + NameMatches(a[1..] + b, name, term);
      NameMatchesAppend(a[1..], b, name, term);
    } else {
      assert a + b == b;
    }
  }

  /** The empty term returns every row. */
  lemma {:induction false} EmptyTermMatchesAll<T(!new)>(s: seq<T>, name: T -> string)
    ensures NameMatches(s, name, "") == s
  {
    if s != [] {
      EmptyTermMatches(name(s[0]));
      EmptyTermMatchesAll(s[1..], name);
    }
  }

  /** Terms that differ only in letter case ("Hop", "hop", "HOP") return the same rows. */
  lemma {:induction false} SearchIgnoresTermCase<T(!new)>(s: seq<T>, name: T -> string, t1: string, t2: string)
    requires Lower(t1) == Lower(t2)
    ensures NameMatches(s, name, t1) == NameMatches(s, name, t2)
  {
    if s != [] {
      SearchIgnoresTermCase(s[1..], name, t1, t2);
    }
  }

  /** A window of the lower-cased name equal to the lower-cased term makes the name match. */
  lemma TermMatchesAt(name: string, term: string, i: int)
    requires OccursAt(Lower(term), Lower(name), i)
    ensures MatchesTerm(name, term)
  {
    OccursFromWindow(Lower(term), Lower(name), i);
  }

  /** A name whose lower-cased form lacks the term's first letter does not match. */
  lemma FirstLetterMissing(name: string, term: string)
    requires term != [] && Lower(term)[0] !in Lower(name)
    ensures !MatchesTerm(name, term)
  {
    var p, s := Lower(term), Lower(name);
    forall i
      ensures !OccursAt(p, s, i)
    {
      if 0 <= i <= |s| - |p| {
        assert s[i..i + |p|][0] == s[i];
      }
    }
    OccursIff(p, s);
  }

  /** Lower-casing a name that lacks a letter in both cases yields no copy of that letter. */
  lemma LetterAbsent(s: string, c: char)
    requires 'a' <= c <= 'z'
    requires c !in s && (c as int - 32) as char !in s
    ensures c !in Lower(s)
  {
    forall j | 0 <= j < |s|
      ensures Lower(s)[j] != c
    {
      assert s[j] in s;
    }
  }

  /** "Music" matches "The Musical Hop". */
  lemma MusicInHop(name: string, term: string)
    requires name == "The Musical Hop" && term == "Music"
    ensures MatchesTerm(name, term)
  {
    var t, l := Lower(term), Lower(name);
    assert t[0] == 'm' && t[1] == 'u' && t[2] == 's' && t[3] == 'i' && t[4] == 'c';
    assert name[4] == 'M' && name[5] == 'u' && name[6] == 's' && name[7] == 'i' && name[8] == 'c';
    assert l[4..9] == t;
    TermMatchesAt(name, term, 4);
  }

  /** "Music" matches "Park Square Live Music & Coffee". */
  lemma MusicInPark(name: string, term: string)
    requires name == "Park Square Live Music & Coffee" && term == "Music"
    ensures MatchesTerm(name, term)
  {
    var t, l := Lower(term), Lower(name);
    assert t[0] == 'm' && t[1] == 'u' && t[2] == 's' && t[3] == 'i' && t[4] == 'c';
    assert name[17] == 'M' && name[18] == 'u' && name[19] == 's' && name[20] == 'i' && name[21] == 'c';
    assert l[17..22] == t;
    TermMatchesAt(name, term, 17);
  }

  /** "Hop" matches "The Musical Hop". */
  lemma HopInHop(name: string, term: string)
    requires name == "The Musical Hop" && term == "Hop"
    ensures MatchesTerm(name, term)
  {
    var t, l := Lower(term), Lower(name);
    assert t[0] == 'h' && t[1] == 'o' && t[2] == 'p';
    assert name[12] == 'H' && name[13] == 'o' && name[14] == 'p';
    assert l[12..15] == t;
    TermMatchesAt(name, term, 12);
  }

  /** "Hop" does not match "Park Square Live Music & Coffee". */
  lemma HopNotInPark(name: string, term: string)
    requires name == "Park Square Live Music & Coffee" && term == "Hop"
    ensures !MatchesTerm(name, term)
  {
    assert Lower(term)[0] == 'h';
    LetterAbsent(name, 'h');
    FirstLetterMissing(name, term);
  }

  /** The venue search of the two sample venues: "Music" finds both, "Hop" only the first. */
  lemma MusicalHopScenario(hop: Venue, park: Venue)
    requires hop.name == "The Musical Hop" && park.name == "Park Square Live Music & Coffee"
    ensures NameMatches([hop, park], VenueName, "Music") == [hop, park]
    ensures NameMatches([hop, park], VenueName, "Hop") == [hop]
  {
    MusicInHop(hop.name, "Music");
    MusicInPark(park.name, "Music");
    HopInHop(hop.name, "Hop");
    HopNotInPark(park.name, "Hop");
    assert [hop, park][1..] == [park];
  }

  /** "A" matches any name with a lower-case `a` at position `i`. */
  lemma AAt(name: string, term: string, i: int)
    requires term == "A" && 0 <= i < |name| && name[i] == 'a'
    ensures MatchesTerm(name, term)
  {
    assert Lower(term)[0] == 'a';
    assert Lower(name)[i..i + 1] == Lower(term);
    TermMatchesAt(name, term, i);
  }

  /** "band" matches "The Wild Sax Band". */
  lemma BandInSax(name: string, term: string)
    requires name == "The Wild Sax Band" && term == "band"
    ensures MatchesTerm(name, term)
  {
    var t, l := Lower(term), Lower(name);
    assert t[0] == 'b' && t[1] == 'a' && t[2] == 'n' && t[3] == 'd';
    assert name[13] == 'B' && name[14] == 'a' && name[15] == 'n' && name[16] == 'd';
    assert l[13..17] == t;
    TermMatchesAt(name, term, 13);
  }

  /** "band" matches neither "Guns N Petals" nor "Matt Quevado": neither has a `b`. */
  lemma BandNotInOthers(guns: string, matt: string, term: string)
    requires guns == "Guns N Petals" && matt == "Matt Quevado" && term == "band"
    ensures !MatchesTerm(guns, term) && !MatchesTerm(matt, term)
  {
    assert Lower(term)[0] == 'b';
    LetterAbsent(guns, 'b');
    LetterAbsent(matt, 'b');
    FirstLetterMissing(guns, term);
    FirstLetterMissing(matt, term);
  }

  /** The artist search of the three sample artists for "A" finds all three, in order. */
  lemma ArtistSearchA(guns: Artist, matt: Artist, sax: Artist, term: string)
    requires guns.name == "Guns N Petals" && matt.name == "Matt Quevado" && sax.name == "The Wild Sax Band"
    requires term == "A"
    ensures NameMatches([guns, matt, sax], ArtistName, term) == [guns, matt, sax]
  {
    assert guns.name[10] == 'a' && matt.name[1] == 'a' && sax.name[10] == 'a';
    AAt(guns.name, term, 10);
    AAt(matt.name, term, 1);
    AAt(sax.name, term, 10);
    assert [sax][1..] == [];
    assert NameMatches([sax], ArtistName, term) == [sax];
    assert [matt, sax][1..] == [sax];
    assert NameMatches([matt, sax], ArtistName, term) == [matt, sax];
    assert [guns, matt, sax][1..] == [matt, sax];
  }

  /** The artist search of the three sample artists for "band" finds only the last. */
  lemma ArtistSearchBand(guns: Artist, matt: Artist, sax: Artist, term: string)
    requires guns.name == "Guns N Petals" && matt.name == "Matt Quevado" && sax.name == "The Wild Sax Band"
    requires term == "band"
    ensures NameMatches([guns, matt, sax], ArtistName, term) == [sax]
  {
    BandInSax(sax.name, term);
    BandNotInOthers(guns.name, matt.name, term);
    assert [sax][1..] == [];
    assert NameMatches([sax], ArtistName, term) == [sax];
    assert [matt, sax][1..] == [sax];
    assert NameMatches([matt, sax], ArtistName, term) == [sax];
    assert [guns, matt, sax][1..] == [matt, sax];
  }

  /** The artist search of the three sample artists: "A" finds all three, "band" only the last. */
  lemma ArtistSearchScenario(guns: Artist, matt: Artist, sax: Artist)
    requires guns.name == "Guns N Petals" && matt.name == "Matt Quevado" && sax.name == "The Wild Sax Band"
    ensures NameMatches([guns, matt, sax], ArtistName, "A") == [guns, matt, sax]
    ensures NameMatches([guns, matt, sax], ArtistName, "band") == [sax]
  {
    ArtistSearchA(guns, matt, sax, "A");
    ArtistSearchBand(guns, matt, sax, "band");
  }

  // ---------------------------------------------------------------------
  // Area listing
  // ---------------------------------------------------------------------

  /** The venues of one (city, state) area, in table order (`filter_by(city=..., state=...)`). */
  function InArea(vs: seq<Venue>, area: (string, string)): (r: seq<Venue>)
    ensures forall v :: v in r <==> v in vs && AreaOf(v) == area
  {
    if vs == [] then []
    else
      assert forall v :: v in vs ==> v == vs[0] || v in vs[1..];
      (if AreaOf(vs[0]) == area then [vs[0]] else []) + InArea(vs[1..], area)
  }

  /** Grouping commutes with concatenation, so a group keeps the table's order. */
  lemma {:induction false} InAreaAppend(a: seq<Venue>, b: seq<Venue>, area: (string, string))
    ensures InArea(a + b, area) == InArea(a, area) + InArea(b, area)
  {
    if a != [] {
      assert (a + b)[1..] == a[1..] + b;
      InAreaAppend(a[1..], b, area);
    } else {
      assert a + b == b;
    }
  }

  /** The (city, state) pairs that occur in `vs`. */
  function AreasOf(vs: seq<Venue>): set<(string, string)>
  {
    set v | v in vs :: AreaOf(v)
  }

  /**
   * `distinct(city, state)`: one representative venue per area, the first of
   * its area in table order, in order of first appearance.
   */
  function Representatives(vs: seq<Venue>): (r: seq<Venue>)
    ensures |r| <= |vs|
    ensures forall u :: u in r ==> u in vs
  {
    if vs == [] then []
    else
      var reps := Representatives(vs[..|vs| - 1]);
      if AreaOf(vs[|vs| - 1]) in AreasOf(reps) then reps else reps + [vs[|vs| - 1]]
  }

  /** The representatives are stored venues, cover every area, and no two share one. */
  lemma {:induction false} RepresentativesSpec(vs: seq<Venue>)
    ensures forall u :: u in Representatives(vs) ==> u in vs
    ensures AreasOf(Representatives(vs)) == AreasOf(vs)
    ensures var r := Representatives(vs);
            forall i, j :: 0 <= i < j < |r| ==> AreaOf(r[i]) != AreaOf(r[j])
  {
    if vs != [] {
      var init, last := vs[..|vs| - 1], vs[|vs| - 1];
      assert vs == init + [last];
      RepresentativesSpec(init);
      var reps := Representatives(init);
      assert AreasOf(vs) == AreasOf(init) + {AreaOf(last)};
      if AreaOf(last) !in AreasOf(reps) {
        var r := reps + [last];
        assert AreasOf(r) == AreasOf(reps) + {AreaOf(last)};
        forall i, j | 0 <= i < j < |r|
          ensures AreaOf(r[i]) != AreaOf(r[j])
        {
          if j == |reps| {
            assert r[i] in reps;
          }
        }
      }
    }
  }

  /** Whose upcoming count each entry of an area carries. */
  datatype CountPolicy =
    | RepresentativeCount   // the handler's count for the area's representative venue, for every venue
    | OwnCount              // each venue's own number of upcoming shows

  /** A listed area. */
  datatype Area = Area(city: string, state: string, venues: seq<Summary>)

  /** The entries of one area: every venue of the group, with the count the policy picks. */
  function AreaEntries(group: seq<Venue>, ss: seq<Show>, now: int, rep: Venue, policy: CountPolicy): seq<Summary>
  {
    seq(|group|, m requires 0 <= m < |group| =>
      Summary(group[m].id, group[m].name,
              if policy == RepresentativeCount then UpcomingCount(ss, VenueSide, rep.id, now)
              else UpcomingTotal(ss, VenueSide, group[m].id, now)))
  }

  /** The venue listing: one area per representative, listing every venue of that area. */
  function Listing(vs: seq<Venue>, ss: seq<Show>, now: int, policy: CountPolicy): (l: seq<Area>)
    ensures |l| == |Representatives(vs)|
  {
    var reps := Representatives(vs);
    seq(|reps|, k requires 0 <= k < |reps| =>
      Area(reps[k].city, reps[k].state, AreaEntries(InArea(vs, AreaOf(reps[k])), ss, now, reps[k], policy)))
  }

  /** Area `k` lists the venues of its (city, state), in table order, by id and name. */
  lemma ListingArea(vs: seq<Venue>, ss: seq<Show>, now: int, policy: CountPolicy, k: int)
    requires 0 <= k < |Listing(vs, ss, now, policy)|
    ensures var a := Listing(vs, ss, now, policy)[k];
            var group := InArea(vs, (a.city, a.state));
            |a.venues| == |group| &&
            forall m :: 0 <= m < |group| ==> a.venues[m].id == group[m].id && a.venues[m].name == group[m].name
  {
  }

  /** Two listed areas never share a (city, state). */
  lemma ListingAreasDistinct(vs: seq<Venue>, ss: seq<Show>, now: int, policy: CountPolicy)
    ensures var l := Listing(vs, ss, now, policy);
            forall i, j :: 0 <= i < j < |l| ==> (l[i].city, l[i].state) != (l[j].city, l[j].state)
  {
    var reps := Representatives(vs);
    var l := Listing(vs, ss, now, policy);
    RepresentativesSpec(vs);
    forall i, j | 0 <= i < j < |l|
      ensures (l[i].city, l[i].state) != (l[j].city, l[j].state)
    {
      assert AreaOf(reps[i]) != AreaOf(reps[j]);
    }
  }

  /** Every stored venue is listed, under the one area of its (city, state). */
  lemma EveryVenueListed(vs: seq<Venue>, ss: seq<Show>, now: int, policy: CountPolicy, v: Venue)
    requires v in vs
    ensures var l := Listing(vs, ss, now, policy);
            exists k, m :: 0 <= k < |l| && 0 <= m < |l[k].venues| &&
              (l[k].city, l[k].state) == AreaOf(v) && l[k].venues[m].id == v.id && l[k].venues[m].name == v.name
  {
    var reps := Representatives(vs);
    RepresentativesSpec(vs);
    assert AreaOf(v) in AreasOf(vs);
    var u :| u in reps && AreaOf(u) == AreaOf(v);
    var k :| 0 <= k < |reps| && reps[k] == u;
    var group := InArea(vs, AreaOf(u));
    assert v in group;
    var m :| 0 <= m < |group| && group[m] == v;
    var l := Listing(vs, ss, now, policy);
    var entries := AreaEntries(group, ss, now, u, policy);
    assert l[k] == Area(u.city, u.state, entries);
    assert entries[m].id == v.id && entries[m].name == v.name;
  }

  /** Every entry of an area is a stored venue of that (city, state). */
  lemma ListedVenuesBelong(vs: seq<Venue>, ss: seq<Show>, now: int, policy: CountPolicy, k: int, m: int)
    requires var l := Listing(vs, ss, now, policy); 0 <= k < |l| && 0 <= m < |l[k].venues|
    ensures var l := Listing(vs, ss, now, policy);
            exists v :: v in vs && AreaOf(v) == (l[k].city, l[k].state) &&
              v.id == l[k].venues[m].id && v.name == l[k].venues[m].name
  {
    var reps := Representatives(vs);
    var group := InArea(vs, AreaOf(reps[k]));
    assert group[m] in group;
  }

  /** As the handler is written, every entry of area `k` carries its representative's count. */
  lemma RepresentativeCountShared(vs: seq<Venue>, ss: seq<Show>, now: int, k: int, m: int)
    requires var l := Listing(vs, ss, now, RepresentativeCount); 0 <= k < |l| && 0 <= m < |l[k].venues|
    ensures var l := Listing(vs, ss, now, RepresentativeCount);
            l[k].venues[m].numUpcomingShows == l[k].venues[0].numUpcomingShows ==
            UpcomingCount(ss, VenueSide, Representatives(vs)[k].id, now)
  {
  }

  /** With own counts, every entry carries the upcoming count of the venue it names. */
  lemma OwnCountPerVenue(vs: seq<Venue>, ss: seq<Show>, now: int, k: int, m: int)
    requires var l := Listing(vs, ss, now, OwnCount); 0 <= k < |l| && 0 <= m < |l[k].venues|
    ensures var l := Listing(vs, ss, now, OwnCount);
            l[k].venues[m].numUpcomingShows == UpcomingTotal(ss, VenueSide, l[k].venues[m].id, now)
  {
  }

  /** Two venues of one area have the first as their only representative. */
  lemma RepresentativesOfPair(first: Venue, second: Venue)
    requires AreaOf(first) == AreaOf(second)
    ensures Representatives([first, second]) == [first]
    ensures InArea([first, second], AreaOf(first)) == [first, second]
  {
    assert [first, second][..1] == [first];
    assert [first][..0] == [];
    assert Representatives([first]) == [first];
    assert AreaOf(second) in AreasOf([first]);
    assert [first, second][1..] == [second];
    assert [second][1..] == [];
    assert InArea([second], AreaOf(first)) == [second];
  }

  /**
   * Two venues of one area, only the second with an upcoming show: the listing
   * as written shows 0 upcoming shows for the second, its own count is 1.
   */
  lemma RepresentativeCountCounterexample(first: Venue, second: Venue)
    requires first.id == 1 && second.id == 2 && AreaOf(first) == AreaOf(second)
    ensures var ss := [Show(1, 7, 2, 10)];
            |Listing([first, second], ss, 0, RepresentativeCount)| == |Listing([first, second], ss, 0, OwnCount)| == 1 &&
            |Listing([first, second], ss, 0, RepresentativeCount)[0].venues| == 2 &&
            |Listing([first, second], ss, 0, OwnCount)[0].venues| == 2
    ensures var ss := [Show(1, 7, 2, 10)];
            Listing([first, second], ss, 0, RepresentativeCount)[0].venues[1].numUpcomingShows == 0 &&
            Listing([first, second], ss, 0, OwnCount)[0].venues[1].numUpcomingShows == 1 &&
            UpcomingTotal(ss, VenueSide, second.id, 0) == 1
  {
    var ss := [Show(1, 7, 2, 10)];
    RepresentativesOfPair(first, second);
    assert Select(ss, Of(VenueSide, 1)) == [];
    assert Select(ss, Of(VenueSide, 2)) == ss;
    assert Select(ss, AfterTime(0)) == ss;
  }

  /**
   * Two venues of one area, only the first (the representative) with an
   * upcoming show: the listing as written shows 1 upcoming show for the
   * second venue, whose own detail page has none.
   */
  lemma ListingExceedsDetail(first: Venue, second: Venue)
    requires first.id == 1 && second.id == 2 && AreaOf(first) == AreaOf(second)
    ensures var ss := [Show(1, 7, 1, 10)];
            |Listing([first, second], ss, 0, RepresentativeCount)| == 1 &&
            |Listing([first, second], ss, 0, RepresentativeCount)[0].venues| == 2
    ensures var ss := [Show(1, 7, 1, 10)];
            Listing([first, second], ss, 0, RepresentativeCount)[0].venues[1].numUpcomingShows == 1 &&
            |Select(Select(ss, Of(VenueSide, second.id)), FromTime(0))| == 0
  {
    var ss := [Show(1, 7, 1, 10)];
    RepresentativesOfPair(first, second);
    assert Select(ss, Of(VenueSide, 1)) == ss;
    assert Select(ss, Of(VenueSide, 2)) == [];
    assert Select(ss, AfterTime(0)) == ss;
  }

  // ---------------------------------------------------------------------
  // Show listing
  // ---------------------------------------------------------------------

  /** A row of the show listing. */
  datatype ShowRow = ShowRow(
    venueId: int, venueName: string, artistId: int, artistName: string, artistImageLink: string, startTime: int)

  /** The row for show `s`, joined to its venue and its artist. */
  function ListedRow(venues: seq<Venue>, artists: seq<Artist>, s: Show): (row: ShowRow)
    requires Has(venues, VenueId, s.venueId) && Has(artists, ArtistId, s.artistId)
    ensures row.venueId == s.venueId && row.artistId == s.artistId && row.startTime == s.startTime
  {
    var v := Lookup(venues, VenueId, s.venueId).value;
    var a := Lookup(artists, ArtistId, s.artistId).value;
    ShowRow(v.id, v.name, a.id, a.name, a.imageLink, s.startTime)
  }

  /** The row as the handler builds it: its `venue_id` holds the show's own id. */
  function ListedRowAsWritten(venues: seq<Venue>, artists: seq<Artist>, s: Show): (row: ShowRow)
    requires Has(venues, VenueId, s.venueId) && Has(artists, ArtistId, s.artistId)
    ensures row.venueId == s.id
    ensures row.(venueId := s.venueId) == ListedRow(venues, artists, s)
  {
    ListedRow(venues, artists, s).(venueId := s.id)
  }

  /** A listed row names the venue and artist its ids designate, at the show's start time. */
  lemma ListedRowConsistent(venues: seq<Venue>, artists: seq<Artist>, s: Show)
    requires Has(venues, VenueId, s.venueId) && Has(artists, ArtistId, s.artistId)
    ensures var row := ListedRow(venues, artists, s);
            row.venueId == s.venueId && row.artistId == s.artistId && row.startTime == s.startTime &&
            Lookup(venues, VenueId, row.venueId).value.name == row.venueName &&
            Lookup(artists, ArtistId, row.artistId).value.name == row.artistName &&
            Lookup(artists, ArtistId, row.artistId).value.imageLink == row.artistImageLink
  {
  }

  /**
   * Show 1 at venue 2 while venue 1 is another venue: the row as written says
   * venue id 1 but carries the name of venue 2.
   */
  lemma ListedRowCounterexample(one: Venue, two: Venue, artist: Artist)
    requires one.id == 1 && two.id == 2 && one.name != two.name && artist.id == 7
    ensures Has([one, two], VenueId, 2) && Has([artist], ArtistId, 7)
    ensures var s := Show(1, 7, 2, 0);
            var row := ListedRowAsWritten([one, two], [artist], s);
            row.venueId == 1 && row.venueName == two.name &&
            Lookup([one, two], VenueId, row.venueId).value.name != row.venueName
  {
    assert VenueId(two) == 2 && two in [one, two];
    assert ArtistId(artist) == 7 && artist in [artist];
    assert VenueId(one) == 1;
  }
}

=== FILE: text.dfy ===
/**
 * Case-insensitive substring matching, as the name searches use it:
 * `name ILIKE '%term%'` with the term taken literally.
 */
module Text {

  /** ASCII lower-casing of one character. */
  function LowerChar(c: char): char
  {
    if 'A' <= c <= 'Z' then (c as int + 32) as char else c
  }

  /** Lower-cases every character of `s`. */
  function Lower(s: string): (r: string)
    ensures |r| == |s|
    ensures forall i :: 0 <= i < |s| ==> r[i] == LowerChar(s[i])
  {
    seq(|s|, i requires 0 <= i < |s| => LowerChar(s[i]))
  }

  predicate IsPrefix(p: string, s: string)
  {
    |p| <= |s| && s[..|p|] == p
  }

  /** `p` occurs in `s` as a contiguous block. */
  predicate Occurs(p: string, s: string)
  {
    IsPrefix(p, s) || (s != [] && Occurs(p, s[1..]))
  }

  /** A name matches a search term when the lower-cased term occurs in the lower-cased name. */
  function MatchesTerm(name: string, term: string): (b: bool)
    ensures b <==> exists i :: OccursAt(Lower(term), Lower(name), i)
  {
    OccursIff(Lower(term), Lower(name));
    Occurs(Lower(term), Lower(name))
  }

  /** The window of `s` that starts at `i` equals `p`. */
  predicate OccursAt(p: string, s: string, i: int)
  {
    0 <= i <= |s| - |p| && s[i..i + |p|] == p
  }

  /** A window equal to `p` makes `p` occur. */
  lemma {:induction false} OccursFromWindow(p: string, s: string, i: int)
    requires OccursAt(p, s, i)
    ensures Occurs(p, s)
  {
    if i == 0 {
      assert s[..|p|] == p;
    } else {
      assert s[1..][i - 1..i - 1 + |p|] == s[i..i + |p|];
      OccursFromWindow(p, s[1..], i - 1);
    }
  }

  /** When `p` occurs, some window equals it. */
  lemma {:induction false} WindowFromOccurs(p: string, s: string)
    requires Occurs(p, s)
    ensures exists i :: OccursAt(p, s, i)
  {
    if IsPrefix(p, s) {
      assert OccursAt(p, s, 0);
    } else {
      WindowFromOccurs(p, s[1..]);
      var i :| OccursAt(p, s[1..], i);
      assert s[1..][i..i + |p|] == s[i + 1..i + 1 + |p|];
      assert OccursAt(p, s, i + 1);
    }
  }

  /** `Occurs` holds exactly when some window of `s` equals `p`. */
  lemma OccursIff(p: string, s: string)
    ensures Occurs(p, s) <==> exists i :: OccursAt(p, s, i)
  {
    if Occurs(p, s) {
      WindowFromOccurs(p, s);
    }
    if exists i :: OccursAt(p, s, i) {
      var i :| OccursAt(p, s, i);
      OccursFromWindow(p, s, i);
    }
  }

  /** Lower-casing twice changes nothing more. */
  lemma LowerIdempotent(s: string)
    ensures Lower(Lower(s)) == Lower(s)
  {
    forall i | 0 <= i < |s|
      ensures Lower(Lower(s))[i] == Lower(s)[i]
    {
      assert LowerChar(LowerChar(s[i])) == LowerChar(s[i]);
    }
  }

  /** Matching ignores the case of both the name and the term. */
  lemma MatchIgnoresCase(name: string, term: string)
    ensures MatchesTerm(name, term) == MatchesTerm(Lower(name), Lower(term))
  {
    LowerIdempotent(name);
    LowerIdempotent(term);
  }

  /** The empty term matches every name. */
  lemma EmptyTermMatches(name: string)
    ensures MatchesTerm(name, "")
  {
    assert Lower("") == "";
  }
}

=== FILE: wrappers.dfy ===
/** The optional value returned by lookups that may find nothing. */
module Wrappers {
  datatype Option<+T> = None | Some(value: T)
}
